=== FILE: README.md ===
# Library catalogue: a Dafny model

This project models the core of a small Flask/SQLAlchemy service that keeps a catalogue of books and authors. It covers:

- the `book`, `author` and `book_author` tables;
- the JSON projections `to_dict` and `simple_dict`;
- the ten create/read/update/delete handlers;
- the universal search endpoint.

The SQLite database becomes one value, `Catalogue.Store`, with three parts:

- a map from id to `Book`;
- a map from id to `Author`;
- a set of `Link(book, author)` pairs.

The association table is a set because its primary key spans both columns.

Each handler that changes the database has two forms:

- a specification function from the committed state and the request to a `Step`. A `Step` holds the handler's `Response` and the next committed state.
- a method of the class `Handlers.Library`. The class holds the three tables as fields and updates them step by step, as the handler does. Each method is proved to follow its specification function and to keep the database `Consistent`:
  - every association row names an existing book and author;
  - no two books share a non-null ISBN.

Responses are modelled as follows:

- `Ok` stands for 200/201. `NotFound` and `BadRequest` carry the handler's error text.
- `ServerError` stands for an unhandled exception: a commit the database refuses, or iterating a null list. The transaction is rolled back, so the state is unchanged. This happens in three cases:
  - an update sets a NOT NULL column to null;
  - an ISBN would be held twice;
  - an update's `author_ids` is null, so iterating it raises.

A request body is a `BookData` or `AuthorData`:

- Each key is `Absent`, or `Present` with a value or JSON null.
- `data.get(key)`, Python truthiness and `if key in data` are modelled exactly, including Python's `not data` for an empty body.
- `get_json()` returning None, for a JSON `null` body, is `None`.

Search is modelled with the semantics of SQLite. `ilike('%q%')` compiles to `lower(col) LIKE lower('%q%')`. The model reflects that as follows:

- `%` and `_` in the query act as wildcards.
- Case folding covers ASCII letters only.
- `str.strip()` removes Python's full whitespace set.

For a query without wildcards, a lemma proves that the match is case-insensitive substring search. The two `extend` loops and the `list(set(...))` de-duplication are methods proved against set formulas.

Ids follow SQLite's rule for an INTEGER PRIMARY KEY inserted without a value: one more than the largest id in use, or 1 for an empty table.

Modules, one file each:

- `Requests` (requests.dfy): options, request bodies, responses.
- `Text` (text.dfy): `strip()` and `LIKE`.
- `Catalogue` (catalogue.dfy): records, store, consistency, row ids, projections and the four read handlers.
- `Handlers` (handlers.dfy): the six write handlers, their specifications, their properties and the `Library` class.
- `Search` (search.dfy): the search endpoint.
- `Seed` (seed.dfy): the sample data and the search it demonstrates.

## Model

| member | source | states |
|---|---|---|
| Catalogue.NextRowId | app.py:22 | the id given to a new row is not in use and exceeds every id in use; it is 1 in an empty table and otherwise one more than the largest id |
| Catalogue.BookToDict | app.py:32-40 | `Book.to_dict()` carries the book's id, and its author list holds exactly the `simple_dict` of each existing author linked to the book |
| Catalogue.AuthorToDict | app.py:56-64 | `Author.to_dict()` carries the author's id, and its book list holds exactly the `simple_dict` of each existing book linked to the author |
| Catalogue.DictsAgree | app.py:16-19 | the two sides of the many-to-many relationship agree: a book lists an author iff the author lists the book iff the pair is in `book_author` |
| Catalogue.ListBooks | app.py:78-85 | the listing holds the `to_dict` of every book and nothing else, and `count` equals the number of entries |
| Catalogue.GetBook | app.py:88-93 | a known id yields the book's `to_dict`; an unknown id yields not-found with "Book not found" |
| Catalogue.ListAuthors | app.py:190-197 | the listing holds the `to_dict` of every author and nothing else, and `count` equals the number of entries |
| Catalogue.GetAuthor | app.py:200-205 | a known id yields the author's `to_dict`; an unknown id yields not-found with "Author not found" |
| Handlers.ResolveAuthors | app.py:120-124 | the loop over `author_ids` keeps exactly the ids that name an existing author and silently skips the rest; it also reports whether an existing author was appended twice, the case the create and update properties leave open |
| Handlers.CreateBookRejects | app.py:100-127 | a create succeeds iff there is a non-empty body, a truthy title and an ISBN no book holds; a null or empty JSON body, a missing title and a taken non-empty ISBN each yield their error text, in that order; a failed create changes nothing |
| Handlers.EmptyIsbnReachesCommit | app.py:107-110 | an empty-string ISBN skips the duplicate check, so a second book with ISBN "" is refused only at commit, with the database unchanged |
| Handlers.CreateBookEffect | app.py:112-133 | unless `author_ids` names an existing author twice, a created book gets the next row id and the given columns; its authors are exactly the requested ids that exist; no other book's authors change; reading it back returns what the create returned |
| Handlers.CreateBookPreservesConsistency | app.py:25 | a book create keeps every association row resolvable and every non-null ISBN unique |
| Handlers.CreateAuthorRejects | app.py:212-216 | an author create succeeds iff there is a non-empty body with a truthy name; otherwise the error text is "No data provided" or "Name is required" and nothing changes |
| Handlers.CreateAuthorEffect | app.py:218-231 | a created author gets the next row id and the given columns and has no books; books and association rows are unchanged; reading it back returns what the create returned |
| Handlers.CreateAuthorPreservesConsistency | app.py:218-225 | an author create keeps the database consistent |
| Handlers.UpdateUnknownId | app.py:138-140 | an update of an unknown book or author id answers not-found, whatever the body, and changes nothing |
| Handlers.UpdateBookOutcome | app.py:138-162 | unless `author_ids` names an existing author twice, a book update succeeds iff the id is known, the body is non-empty, neither title nor `author_ids` is set to null, and the resulting ISBN is held by no other book; otherwise nothing changes |
| Handlers.UpdateBookEffect | app.py:146-160 | unless `author_ids` names an existing author twice, a successful book update overwrites exactly the columns whose keys are present, null and "" included; it replaces the book's authors with the existing requested ids iff `author_ids` is present; no other book, author or association row changes |
| Handlers.UpdateOnlyYear | app.py:149-150 | in a consistent database, a body holding only `year` succeeds and changes the year alone, leaving title, ISBN and authors as they were |
| Handlers.UpdateBookPreservesConsistency | app.py:151-162 | a book update never leaves a duplicate ISBN or a dangling association row behind |
| Handlers.UpdateAuthorOutcome | app.py:236-252 | an author update succeeds iff the id is known, the body is non-empty and the name is not set to null; otherwise nothing changes |
| Handlers.UpdateAuthorEffect | app.py:244-250 | a successful author update overwrites exactly the columns whose keys are present; it never changes books or the association table, nor any other author |
| Handlers.UpdateAuthorPreservesConsistency | app.py:244-252 | an author update keeps the database consistent |
| Handlers.DeleteBookEffect | app.py:172-183 | a delete succeeds iff the book exists; it removes the book and exactly its association rows; authors remain; the database stays consistent; no author lists the book; a repeated delete answers not-found |
| Handlers.DeleteAuthorEffect | app.py:262-273 | a delete succeeds iff the author exists; it removes the author and exactly its association rows; books remain; the database stays consistent; no book lists the author; a repeated delete answers not-found |
| Handlers.Library.constructor | app.py:16-26 | a fresh database has no books, no authors and no association rows, and is consistent |
| Handlers.Library.CreateBook | app.py:96-133 | unless `author_ids` names an existing author twice, the handler's response and the new tables are those of `CreateBookSpec`, and the database stays consistent |
| Handlers.Library.CreateAuthor | app.py:208-231 | the handler's response and the new tables are those of `CreateAuthorSpec`, and the database stays consistent |
| Handlers.Library.UpdateBook | app.py:136-168 | unless `author_ids` names an existing author twice, the handler's response and the new tables are those of `UpdateBookSpec`, and the database stays consistent |
| Handlers.Library.UpdateAuthor | app.py:234-258 | the handler's response and the new tables are those of `UpdateAuthorSpec`, and the database stays consistent |
| Handlers.Library.DeleteBook | app.py:171-183 | the handler's response and the new tables are those of `DeleteBookSpec`, and the database stays consistent |
| Handlers.Library.DeleteAuthor | app.py:261-273 | the handler's response and the new tables are those of `DeleteAuthorSpec`, and the database stays consistent |
| Text.StripSpec | app.py:281 | `strip()` returns the slice between the leading and trailing whitespace: everything removed is whitespace, and the result neither starts nor ends with whitespace |
| Text.StripEmptyIff | app.py:281-283 | a query strips to "" iff it consists of whitespace only |
| Text.StripIdempotent | app.py:281 | stripping a stripped query changes nothing |
| Text.LikeIsContainsFold | app.py:290 | for a query without `%` or `_`, `ilike('%q%')` holds iff q occurs in the text, ignoring ASCII case |
| Text.UnderscoreMatchesAnyNonEmpty | app.py:290 | an unescaped `_` query turns into the pattern `%_%`, which matches every non-empty text |
| Search.BookResults | app.py:289-302 | the reported books are those whose title matches, together with the books linked to an author whose name matches |
| Search.AuthorResults | app.py:292-311 | the reported authors are those whose name matches, together with the authors linked to a book whose title matches |
| Search.ResultsExist | app.py:302-311 | in a consistent database, every reported id names an existing row |
| Search.ExpansionComplete | app.py:296-309 | every book of an author found by name is reported, and every author of a book found by title is reported |
| Search.PlainQueryIsSubstring | app.py:290-293 | for a query without wildcards, the title and name hits are exactly the rows whose text contains the query, ignoring ASCII case |
| Search.WildcardQueries | app.py:290-293 | the query is not escaped: "%" hits every book and every author, and "_" hits every book with a non-empty title |
| Search.CollectBooks | app.py:295-299 | the `extend` loop over the authors found by name yields exactly the books linked to one of them |
| Search.CollectAuthors | app.py:304-308 | the `extend` loop over the books found by title yields exactly the authors linked to one of them |
| Search.Enumerate | app.py:302 | `list(set(...))` lists every element of the set exactly once, so its length is the set's size |
| Search.BookDictsSpec | app.py:316 | serializing the de-duplicated books gives the `to_dict` of each reported book, each id once |
| Search.AuthorDictsSpec | app.py:317 | serializing the de-duplicated authors gives the `to_dict` of each reported author, each id once |
| Search.SearchAll | app.py:279-320 | a query that is empty after stripping is refused with "Search query is required"; otherwise the response holds the stripped query, the `to_dict` of exactly the specified books and authors, each once, and counts equal to the list lengths and to the sizes of the result sets |
| Seed.SampleConsistent | app.py:1463-1513 | the sample data satisfies the database's constraints |
| Seed.KingSearch | app.py:1463-1513 | over the sample data, "king" reports Stephen King and his books The Shining and Good Omens; it does not report Agatha Christie, his co-author on Good Omens, because the expansion goes one hop only |

## Left out

- Flask routing, the JSON envelope (`success`, `message`) and HTTP status codes are left out. Each handler's outcome is a `Response` instead: `Ok`, `NotFound`, `BadRequest` or `ServerError`.
- The SQLAlchemy session and the SQLite file are left out. The database is the `Store` value or the `Library` fields, and every commit is atomic. Autoflush, which can raise the same commit error earlier in an update, gives the same outcome and is not modelled separately.
- `created_at` and its `isoformat()` are left out: they depend on the clock.
- JSON values of the wrong type are not modelled, for example a numeric title or a string in `author_ids`. A body that is JSON but not an object is also not modelled. Each key holds a value of its column's type, or null.
- The column lengths `String(200)`, `String(20)`, `String(100)` and `String(50)` are not modelled: SQLite does not enforce them. Integers are unbounded. SQLite's rule for a new row id once the largest id is 2^63-1 is not modelled.
- Handlers.Library.CreateBook: requires `NoRepeatedAuthor`, that `author_ids` names no existing author twice. Ids that name no author may repeat, since the loop skips them. When an existing author is appended twice, whether the commit writes one association row or is refused by the table's primary key depends on how SQLAlchemy nets out the collection's history and its `books` backref, which this model does not capture.
- Handlers.CreateBookEffect: states the new links only under `NoRepeatedAuthor`, for the same reason.
- Handlers.Library.UpdateBook: requires `NoRepeatedAuthor`. Appending an existing author twice after `book.authors = []` has an outcome that depends on the same netting of the collection's history and its backref, which this model does not capture.
- Handlers.UpdateBookOutcome: states its success condition only under `NoRepeatedAuthor`, for the same reason.
- Handlers.UpdateBookEffect: states the new links only under `NoRepeatedAuthor`, for the same reason.
- A request that is not JSON, or whose JSON does not parse, is refused inside `get_json()` before the handler's own checks run. That refusal is not modelled; the model starts from the parsed body.
- SQLite refuses a LIKE pattern longer than `SQLITE_MAX_LIKE_PATTERN_LENGTH` (50000 bytes by default) with "LIKE or GLOB pattern too complex". A search query that long makes the search raise, but the model answers it like any other query.
- Search.SearchAll: requires the database to be `Consistent`. This holds of every committed state, as the `Library` methods prove; it is not a demand on the caller.
- Catalogue.ListBooks, Catalogue.ListAuthors, Catalogue.BookToDict and Catalogue.AuthorToDict: lists are modelled as sets, without their order. The ORM returns rows in an order the handlers do not fix.
- Search.SearchAll: the order of `books` and `authors` is not specified, because the source builds them from a Python `set`. Only membership, uniqueness and length are stated.
- Case folding in `ilike` is ASCII only, as in SQLite without the ICU extension. Unicode case folding is not modelled.
- The HTML/JavaScript front end is left out. So are the sample-data seeding as an operation and the startup messages. The seed rows appear only as the constant `Seed.Sample`, for the worked search example.

=== FILE: catalogue.dfy ===
/**
 * The database of the catalogue as one value: the `book` and `author` tables
 * keyed by id, and the `book_author` association table as a set of pairs
 * (its primary key spans both columns, so no pair occurs twice). Also the
 * `to_dict`/`simple_dict` projections and the two read-only handlers of
 * each collection.
 */
module Catalogue {
  import opened Requests

  datatype Book = Book(title: string, year: Option<int>, isbn: Option<string>)

  datatype Author = Author(name: string, birthYear: Option<int>, country: Option<string>)

  /** One row of `book_author`. */
  datatype Link = Link(book: int, author: int)

  datatype Store = Store(books: map<int, Book>, authors: map<int, Author>, links: set<Link>)

  /** Every association row names an existing book and an existing author. */
  ghost predicate LinksResolve(st: Store)
  {
    forall l :: l in st.links ==> l.book in st.books && l.author in st.authors
  }

  /** Some book among `books` holds `isbn`. */
  predicate IsbnInUse(books: map<int, Book>, isbn: string)
  {
    exists b :: b in books && books[b].isbn == Some(isbn)
  }

  /** The UNIQUE constraint of the `isbn` column: no two books share a non-null ISBN. */
  ghost predicate IsbnsUnique(books: map<int, Book>)
  {
    forall b, c :: b in books && c in books && b != c && books[b].isbn.Some? ==> books[b].isbn != books[c].isbn
  }

  /** What the database guarantees of every committed state. */
  ghost predicate Consistent(st: Store)
  {
    LinksResolve(st) && IsbnsUnique(st.books)
  }

  /**
   * A non-empty set has an element to pick: a helper that supplies the
   * witness for the `:|` statements that pick from a set, not a property of
   * the catalogue.
   */
  lemma Inhabited(s: set<int>)
    requires s != {}
    ensures exists x :: x in s
  {
    assert (forall x :: x !in s) ==> s == {};
  }

  /** `m` is the largest element of `ids`. */
  predicate IsLargest(m: int, ids: set<int>)
  {
    m in ids && forall k :: k in ids ==> k <= m
  }

  lemma {:induction false} LargestExists(ids: set<int>)
    requires ids != {}
    ensures exists m :: IsLargest(m, ids)
  {
    Inhabited(ids);
    var x :| x in ids;
    if ids - {x} == {} {
      assert ids == {x};
      assert IsLargest(x, ids);
    } else {
      LargestExists(ids - {x});
      var m :| IsLargest(m, ids - {x});
      assert ids == (ids - {x}) + {x};
      if x > m {
        assert IsLargest(x, ids);
      } else {
        assert IsLargest(m, ids);
      }
    }
  }

  /**
   * The id SQLite gives a row inserted without one into a table whose key is
   * an INTEGER PRIMARY KEY: one more than the largest id in use, or 1 when the
   * table is empty.
   */
  function NextRowId(ids: set<int>): (id: int)
    ensures id !in ids
    ensures forall k :: k in ids ==> k < id
    ensures ids == {} ==> id == 1
    ensures ids != {} ==> id - 1 in ids
  {
    if ids == {} then 1
    else
      LargestExists(ids);
      var m :| IsLargest(m, ids);
      m + 1
  }

  /** `book.authors`: the ids the association table links to book `b`. */
  function AuthorsOf(st: Store, b: int): set<int>
  {
    set l | l in st.links && l.book == b :: l.author
  }

  /** `author.books`: the ids the association table links to author `a`. */
  function BooksOf(st: Store, a: int): set<int>
  {
    set l | l in st.links && l.author == a :: l.book
  }

  datatype AuthorSummary = AuthorSummary(id: int, name: string, country: Option<string>)

  datatype BookSummary = BookSummary(id: int, title: string, year: Option<int>)

  /** `Book.to_dict()` without `created_at`; the author list is unordered. */
  datatype BookDict = BookDict(id: int, title: string, year: Option<int>, isbn: Option<string>,
                               authors: set<AuthorSummary>)

  /** `Author.to_dict()` without `created_at`; the book list is unordered. */
  datatype AuthorDict = AuthorDict(id: int, name: string, birthYear: Option<int>, country: Option<string>,
                                   books: set<BookSummary>)

  /** `Author.simple_dict()`. */
  function AuthorSimple(id: int, a: Author): AuthorSummary
  {
    AuthorSummary(id, a.name, a.country)
  }

  /** `Book.simple_dict()`. */
  function BookSimple(id: int, b: Book): BookSummary
  {
    BookSummary(id, b.title, b.year)
  }

  /** `Book.to_dict()`: the stored columns and a summary of every linked author. */
  function BookToDict(st: Store, id: int): (d: BookDict)
    requires id in st.books
    ensures d.id == id
    ensures forall s :: s in d.authors <==> s.id in st.authors && s.id in AuthorsOf(st, id) && s == AuthorSimple(s.id, st.authors[s.id])
  {
    var b := st.books[id];
    BookDict(id, b.title, b.year, b.isbn,
             set a | a in AuthorsOf(st, id) && a in st.authors :: AuthorSimple(a, st.authors[a]))
  }

  /** `Author.to_dict()`: the stored columns and a summary of every linked book. */
  function AuthorToDict(st: Store, id: int): (d: AuthorDict)
    requires id in st.authors
    ensures d.id == id
    ensures forall s :: s in d.books <==> s.id in st.books && s.id in BooksOf(st, id) && s == BookSimple(s.id, st.books[s.id])
  {
    var a := st.authors[id];
    AuthorDict(id, a.name, a.birthYear, a.country,
               set b | b in BooksOf(st, id) && b in st.books :: BookSimple(b, st.books[b]))
  }

  /**
   * The two sides of the relationship agree: book `b` lists author `a` exactly
   * when author `a` lists book `b`, exactly when the pair is in the
   * association table.
   */
  lemma DictsAgree(st: Store, b: int, a: int)
    requires b in st.books && a in st.authors
    ensures AuthorSimple(a, st.authors[a]) in BookToDict(st, b).authors
        <==> Link(b, a) in st.links
    ensures BookSimple(b, st.books[b]) in AuthorToDict(st, a).books
        <==> Link(b, a) in st.links
  {
    if Link(b, a) in st.links {
      assert a in AuthorsOf(st, b);
      assert b in BooksOf(st, a);
    }
  }

  /** `GET /api/books/<id>`. */
  function GetBook(st: Store, id: int): (r: Response<BookDict>)
    ensures r.Ok? <==> id in st.books
    ensures r.Ok? ==> r.value == BookToDict(st, id)
    ensures !r.Ok? ==> r == NotFound("Book not found")
  {
    if id in st.books then Ok(BookToDict(st, id)) else NotFound("Book not found")
  }

  /** `GET /api/authors/<id>`. */
  function GetAuthor(st: Store, id: int): (r: Response<AuthorDict>)
    ensures r.Ok? <==> id in st.authors
    ensures r.Ok? ==> r.value == AuthorToDict(st, id)
    ensures !r.Ok? ==> r == NotFound("Author not found")
  {
    if id in st.authors then Ok(AuthorToDict(st, id)) else NotFound("Author not found")
  }

  /** The body of a list response: `count` and the serialized rows. */
  datatype Listing<T> = Listing(count: nat, items: set<T>)

  /** The keys of a set of serialized rows. */
  function Keys<T>(items: set<T>, key: T -> int): set<int>
  {
    set x | x in items :: key(x)
  }

  /** Distinct rows have distinct keys: as many keys as rows. */
  lemma {:induction false} KeysCount<T>(items: set<T>, key: T -> int)
    requires forall x, y :: x in items && y in items && key(x) == key(y) ==> x == y
    ensures |Keys(items, key)| == |items|
  {
    if items != {} {
      assert (forall x :: x !in items) ==> items == {};
      var x :| x in items;
      var rest := items - {x};
      KeysCount(rest, key);
      assert Keys(items, key) == Keys(rest, key) + {key(x)};
      assert key(x) !in Keys(rest, key);
    }
  }

  /** `GET /api/books`: every book, serialized, with `count` equal to the length of the list. */
  function ListBooks(st: Store): (r: Listing<BookDict>)
    ensures r.count == |r.items|
    ensures forall d :: d in r.items <==> d.id in st.books && d == BookToDict(st, d.id)
  {
    var items := set id | id in st.books :: BookToDict(st, id);
    var key := (d: BookDict) => d.id;
    KeysCount(items, key);
    assert Keys(items, key) == st.books.Keys by {
      forall id | id in st.books ensures id in Keys(items, key) {
        assert BookToDict(st, id) in items;
      }
    }
    assert |st.books| == |st.books.Keys|;
    Listing(|st.books|, items)
  }

  /** `GET /api/authors`: every author, serialized, with `count` equal to the length of the list. */
  function ListAuthors(st: Store): (r: Listing<AuthorDict>)
    ensures r.count == |r.items|
    ensures forall d :: d in r.items <==> d.id in st.authors && d == AuthorToDict(st, d.id)
  {
    var items := set id | id in st.authors :: AuthorToDict(st, id);
    var key := (d: AuthorDict) => d.id;
    KeysCount(items, key);
    assert Keys(items, key) == st.authors.Keys by {
      forall id | id in st.authors ensures id in Keys(items, key) {
        assert AuthorToDict(st, id) in items;
      }
    }
    assert |st.authors| == |st.authors.Keys|;
    Listing(|st.authors|, items)
  }
}

=== FILE: handlers.dfy ===
/**
 * The six handlers that change the catalogue: create, update and delete of
 * books and authors. Each is specified by a function from the committed state
 * and the request to the response and the next committed state; the `Library`
 * class holds the database tables as fields and performs each handler step
 * by step, and is proved to follow its specification.
 */
module Handlers {
  import opened Requests
  import opened Catalogue

  const BookNotFound := "Book not found"
  const AuthorNotFound := "Author not found"
  const NoDataProvided := "No data provided"
  const TitleRequired := "Title is required"
  const NameRequired := "Name is required"
  const IsbnExists := "ISBN already exists"
  const BookDeleted := "Book deleted successfully"
  const AuthorDeleted := "Author deleted successfully"

  /** What a handler answers and the state the database is in afterwards. */
  datatype Step<T> = Step(response: Response<T>, store: Store)

  /** The ids among `ids` for which `Author.query.get` finds a row. */
  function Existing(authors: map<int, Author>, ids: seq<int>): set<int>
  {
    set a | a in ids && a in authors
  }

  /** The association rows that link book `b` to each of `authorIds`. */
  function LinksFor(b: int, authorIds: set<int>): set<Link>
  {
    set a | a in authorIds :: Link(b, a)
  }

  /** The association table without the rows of book `b`. */
  function WithoutBook(links: set<Link>, b: int): set<Link>
  {
    set l | l in links && l.book != b
  }

  /** The association table without the rows of author `a`. */
  function WithoutAuthor(links: set<Link>, a: int): set<Link>
  {
    set l | l in links && l.author != a
  }

  /** The author ids a create request links: `data['author_ids']` when that is truthy. */
  function RequestedAuthors(d: BookData): seq<int>
  {
    if TruthyList(d.authorIds) then d.authorIds.value.value else []
  }

  /**
   * Some existing author is named twice among `ids`: the loop appends that
   * author to the book's collection twice. How the ORM writes such a
   * collection is not modelled, so `NoRepeatedAuthor` excludes it from the
   * create and update properties.
   */
  predicate RepeatsExisting(authors: map<int, Author>, ids: seq<int>)
  {
    exists i, j :: 0 <= i < j < |ids| && ids[i] == ids[j] && ids[i] in authors
  }

  /** The body's `author_ids`, when the handler iterates it, names no existing author twice. */
  predicate NoRepeatedAuthor(authors: map<int, Author>, data: Option<BookData>)
  {
    data.Some? && data.value.authorIds.Present? && data.value.authorIds.value.Some? ==>
      !RepeatsExisting(authors, data.value.authorIds.value.value)
  }

  /** Appending `ids[n]` repeats an existing author iff it exists and was appended before. */
  lemma RepeatsExistingStep(authors: map<int, Author>, ids: seq<int>, n: nat)
    requires n < |ids|
    ensures RepeatsExisting(authors, ids[..n + 1])
        <==> RepeatsExisting(authors, ids[..n]) || (ids[n] in authors && ids[n] in ids[..n])
  {
    var pre, post := ids[..n], ids[..n + 1];
    if RepeatsExisting(authors, post) {
      var i, j :| 0 <= i < j < |post| && post[i] == post[j] && post[i] in authors;
      if j < n {
        assert pre[i] == pre[j];
      } else {
        assert pre[i] == ids[n];
      }
    }
    if ids[n] in authors && ids[n] in pre {
      var i :| 0 <= i < n && pre[i] == ids[n];
      assert post[i] == post[n];
    }
    if RepeatsExisting(authors, pre) {
      var i, j :| 0 <= i < j < |pre| && pre[i] == pre[j] && pre[i] in authors;
      assert post[i] == post[j];
    }
  }

  /**
   * Looks up each requested author id and keeps those that name an author,
   * skipping the others without complaint; `repeated` tells whether an
   * existing author was appended a second time.
   */
  method ResolveAuthors(authors: map<int, Author>, ids: seq<int>) returns (found: set<int>, repeated: bool)
    ensures forall a :: a in found <==> a in ids && a in authors
    ensures found == Existing(authors, ids)
    ensures repeated <==> RepeatsExisting(authors, ids)
  {
    found, repeated := {}, false;
    for i := 0 to |ids|
      invariant found == Existing(authors, ids[..i])
      invariant repeated <==> RepeatsExisting(authors, ids[..i])
    {
      assert ids[..i + 1] == ids[..i] + [ids[i]];
      RepeatsExistingStep(authors, ids, i);
      if ids[i] in authors {
        if ids[i] in found {
          repeated := true;
        }
        found := found + {ids[i]};
      }
    }
    assert ids[..|ids|] == ids;
  }

  // ---------------------------------------------------------------------------
  // Specifications
  // ---------------------------------------------------------------------------

  /** `POST /api/books`. */
  function CreateBookSpec(st: Store, data: Option<BookData>): Step<BookDict>
  {
    if data.None? || data.value.IsEmpty() then Step(BadRequest(NoDataProvided), st)
    else
      var d := data.value;
      if !TruthyString(d.title) then Step(BadRequest(TitleRequired), st)
      else if TruthyString(d.isbn) && IsbnInUse(st.books, d.isbn.value.value) then Step(BadRequest(IsbnExists), st)
      // the commit: an empty ISBN skipped the check above but is still subject to UNIQUE
      else if Get(d.isbn).Some? && IsbnInUse(st.books, Get(d.isbn).value) then Step(ServerError, st)
      else
        var id := NextRowId(st.books.Keys);
        var next := Store(st.books[id := Book(d.title.value.value, Get(d.year), Get(d.isbn))],
                          st.authors,
                          st.links + LinksFor(id, Existing(st.authors, RequestedAuthors(d))));
        Step(Ok(BookToDict(next, id)), next)
  }

  /** `POST /api/authors`. */
  function CreateAuthorSpec(st: Store, data: Option<AuthorData>): Step<AuthorDict>
  {
    if data.None? || data.value.IsEmpty() then Step(BadRequest(NoDataProvided), st)
    else
      var d := data.value;
      if !TruthyString(d.name) then Step(BadRequest(NameRequired), st)
      else
        var id := NextRowId(st.authors.Keys);
        var next := Store(st.books,
                          st.authors[id := Author(d.name.value.value, Get(d.birthYear), Get(d.country))],
                          st.links);
        Step(Ok(AuthorToDict(next, id)), next)
  }

  /** `PUT /api/books/<id>`. */
  function UpdateBookSpec(st: Store, id: int, data: Option<BookData>): Step<BookDict>
  {
    if id !in st.books then Step(NotFound(BookNotFound), st)
    else if data.None? || data.value.IsEmpty() then Step(BadRequest(NoDataProvided), st)
    else
      var d := data.value;
      var b := st.books[id];
      var title := Overwrite(d.title, Some(b.title));  // None: a null the NOT NULL constraint refuses
      var isbn := Overwrite(d.isbn, b.isbn);
      if d.authorIds == Present(None) then Step(ServerError, st)  // iterating a null list raises
      else if title.None? || (isbn.Some? && IsbnInUse(st.books - {id}, isbn.value)) then Step(ServerError, st)
      else
        var links := if d.authorIds.Present?
                     then WithoutBook(st.links, id) + LinksFor(id, Existing(st.authors, d.authorIds.value.value))
                     else st.links;
        var next := Store(st.books[id := Book(title.value, Overwrite(d.year, b.year), isbn)], st.authors, links);
        Step(Ok(BookToDict(next, id)), next)
  }

  /** `PUT /api/authors/<id>`. */
  function UpdateAuthorSpec(st: Store, id: int, data: Option<AuthorData>): Step<AuthorDict>
  {
    if id !in st.authors then Step(NotFound(AuthorNotFound), st)
    else if data.None? || data.value.IsEmpty() then Step(BadRequest(NoDataProvided), st)
    else
      var d := data.value;
      var a := st.authors[id];
      var name := Overwrite(d.name, Some(a.name));
      if name.None? then Step(ServerError, st)
      else
        var next := Store(st.books,
                          st.authors[id := Author(name.value, Overwrite(d.birthYear, a.birthYear), Overwrite(d.country, a.country))],
                          st.links);
        Step(Ok(AuthorToDict(next, id)), next)
  }

  /** `DELETE /api/books/<id>`: the book's association rows go with it. */
  function DeleteBookSpec(st: Store, id: int): Step<string>
  {
    if id !in st.books then Step(NotFound(BookNotFound), st)
    else Step(Ok(BookDeleted), Store(st.books - {id}, st.authors, WithoutBook(st.links, id)))
  }

  /** `DELETE /api/authors/<id>`: the author's association rows go with it. */
  function DeleteAuthorSpec(st: Store, id: int): Step<string>
  {
    if id !in st.authors then Step(NotFound(AuthorNotFound), st)
    else Step(Ok(AuthorDeleted), Store(st.books, st.authors - {id}, WithoutAuthor(st.links, id)))
  }

  // ---------------------------------------------------------------------------
  // Properties of the specifications
  // ---------------------------------------------------------------------------

  /**
   * A book create fails, leaving the database as it was, without a body, a
   * title, or an ISBN of its own; the errors come in the handler's order.
   */
  lemma CreateBookRejects(st: Store, data: Option<BookData>)
    ensures var s := CreateBookSpec(st, data);
      && (s.response.Ok? <==>
            data.Some? && !data.value.IsEmpty() && TruthyString(data.value.title)
            && !(Get(data.value.isbn).Some? && IsbnInUse(st.books, Get(data.value.isbn).value)))
      && (!s.response.Ok? ==> s.store == st)
      && (data.None? || data.value.IsEmpty() ==> s.response == BadRequest(NoDataProvided))
      && (data.Some? && !data.value.IsEmpty() && !TruthyString(data.value.title) ==> s.response == BadRequest(TitleRequired))
      && (data.Some? && !data.value.IsEmpty() && TruthyString(data.value.title)
          && TruthyString(data.value.isbn) && IsbnInUse(st.books, data.value.isbn.value.value)
          ==> s.response == BadRequest(IsbnExists))
  {
  }

  /**
   * An empty ISBN skips the duplicate check, so a second book with ISBN ""
   * passes validation and is then refused by the UNIQUE constraint.
   */
  lemma EmptyIsbnReachesCommit(st: Store, data: Option<BookData>)
    requires data.Some? && !data.value.IsEmpty() && TruthyString(data.value.title)
    requires data.value.isbn == Present(Some("")) && IsbnInUse(st.books, "")
    ensures CreateBookSpec(st, data) == Step(ServerError, st)
  {
  }

  /**
   * A created book takes a fresh id (SQLite's next rowid), exactly the
   * requested authors that exist, and is retrievable as returned; no other
   * row changes.
   */
  lemma CreateBookEffect(st: Store, data: Option<BookData>)
    requires Consistent(st)
    requires NoRepeatedAuthor(st.authors, data)
    requires CreateBookSpec(st, data).response.Ok?
    ensures var s := CreateBookSpec(st, data);
      var id := s.response.value.id;
      var d := data.value;
      && id !in st.books && id == NextRowId(st.books.Keys)
      && s.store.books == st.books[id := Book(d.title.value.value, Get(d.year), Get(d.isbn))]
      && s.store.authors == st.authors
      && AuthorsOf(s.store, id) == Existing(st.authors, RequestedAuthors(d))
      && (forall b :: b != id ==> AuthorsOf(s.store, b) == AuthorsOf(st, b))
      && GetBook(s.store, id) == s.response
  {
    var s := CreateBookSpec(st, data);
    var id := s.response.value.id;
    var found := Existing(st.authors, RequestedAuthors(data.value));
    assert AuthorsOf(s.store, id) == found by {
      forall a ensures a in AuthorsOf(s.store, id) <==> a in found {
        if a in found { assert Link(id, a) in s.store.links; }
        if a in AuthorsOf(s.store, id) {
          var l :| l in s.store.links && l.book == id && l.author == a;
          assert l !in st.links;
        }
      }
    }
    forall b | b != id ensures AuthorsOf(s.store, b) == AuthorsOf(st, b) {
      forall a ensures a in AuthorsOf(s.store, b) <==> a in AuthorsOf(st, b) {
        if a in AuthorsOf(s.store, b) {
          var l :| l in s.store.links && l.book == b && l.author == a;
          assert l in st.links;
        }
        if a in AuthorsOf(st, b) {
          var l :| l in st.links && l.book == b && l.author == a;
          assert l in s.store.links;
        }
      }
    }
  }

  /** A create keeps every association row resolvable and every non-null ISBN unique. */
  lemma CreateBookPreservesConsistency(st: Store, data: Option<BookData>)
    requires Consistent(st)
    ensures Consistent(CreateBookSpec(st, data).store)
  {
    var s := CreateBookSpec(st, data);
    if s.response.Ok? {
      var id := NextRowId(st.books.Keys);
      var nb := s.store.books[id];
      forall b, c | b in s.store.books && c in s.store.books && b != c && s.store.books[b].isbn.Some?
        ensures s.store.books[b].isbn != s.store.books[c].isbn
      {
        if b == id {
          assert st.books[c].isbn != nb.isbn;
        } else if c == id {
          assert st.books[b].isbn != nb.isbn;
        }
      }
    }
  }

  /** An author create fails, leaving the database as it was, without a body or a name. */
  lemma CreateAuthorRejects(st: Store, data: Option<AuthorData>)
    ensures var s := CreateAuthorSpec(st, data);
      && (s.response.Ok? <==> data.Some? && !data.value.IsEmpty() && TruthyString(data.value.name))
      && (!s.response.Ok? ==> s.store == st)
      && (data.None? || data.value.IsEmpty() ==> s.response == BadRequest(NoDataProvided))
      && (data.Some? && !data.value.IsEmpty() && !TruthyString(data.value.name) ==> s.response == BadRequest(NameRequired))
  {
  }

  /** A created author takes a fresh id, has no books, and nothing else changes. */
  lemma CreateAuthorEffect(st: Store, data: Option<AuthorData>)
    requires Consistent(st)
    requires CreateAuthorSpec(st, data).response.Ok?
    ensures var s := CreateAuthorSpec(st, data);
      var id := s.response.value.id;
      && id !in st.authors && id == NextRowId(st.authors.Keys)
      && s.store.books == st.books && s.store.links == st.links
      && s.store.authors == st.authors[id := Author(data.value.name.value.value, Get(data.value.birthYear), Get(data.value.country))]
      && BooksOf(s.store, id) == {}
      && GetAuthor(s.store, id) == s.response
  {
    var s := CreateAuthorSpec(st, data);
    var id := s.response.value.id;
    assert forall l :: l in s.store.links ==> l.author != id;
  }

  lemma CreateAuthorPreservesConsistency(st: Store, data: Option<AuthorData>)
    requires Consistent(st)
    ensures Consistent(CreateAuthorSpec(st, data).store)
  {
  }

  /** An unknown id is reported before the body is looked at. */
  lemma UpdateUnknownId(st: Store, id: int, bookData: Option<BookData>, authorData: Option<AuthorData>)
    ensures id !in st.books ==> UpdateBookSpec(st, id, bookData) == Step(NotFound(BookNotFound), st)
    ensures id !in st.authors ==> UpdateAuthorSpec(st, id, authorData) == Step(NotFound(AuthorNotFound), st)
  {
  }

  /**
   * A book update succeeds exactly for a known id, a non-empty body, a title
   * that is not set to null, an `author_ids` that is not null, and an ISBN no
   * other book holds; otherwise nothing changes.
   */
  lemma UpdateBookOutcome(st: Store, id: int, data: Option<BookData>)
    requires NoRepeatedAuthor(st.authors, data)
    ensures var s := UpdateBookSpec(st, id, data);
      && (s.response.Ok? <==>
            id in st.books && data.Some? && !data.value.IsEmpty()
            && data.value.title != Present(None) && data.value.authorIds != Present(None)
            && !(Overwrite(data.value.isbn, st.books[id].isbn).Some?
                 && IsbnInUse(st.books - {id}, Overwrite(data.value.isbn, st.books[id].isbn).value)))
      && (!s.response.Ok? ==> s.store == st)
      && (id in st.books && (data.None? || data.value.IsEmpty()) ==> s.response == BadRequest(NoDataProvided))
  {
  }

  /**
   * A successful book update overwrites exactly the fields present in the
   * body (null and "" included), replaces the book's authors when and only
   * when `author_ids` is present, and touches no other row.
   */
  lemma UpdateBookEffect(st: Store, id: int, data: Option<BookData>)
    requires NoRepeatedAuthor(st.authors, data)
    requires UpdateBookSpec(st, id, data).response.Ok?
    ensures var s := UpdateBookSpec(st, id, data);
      var d := data.value;
      var b := st.books[id];
      && s.response.value.id == id
      && s.store.books.Keys == st.books.Keys
      && Some(s.store.books[id].title) == Overwrite(d.title, Some(b.title))
      && s.store.books[id].year == Overwrite(d.year, b.year)
      && s.store.books[id].isbn == Overwrite(d.isbn, b.isbn)
      && (forall c :: c in st.books && c != id ==> s.store.books[c] == st.books[c])
      && s.store.authors == st.authors
      && AuthorsOf(s.store, id) == (if d.authorIds.Present? then Existing(st.authors, d.authorIds.value.value)
                                    else AuthorsOf(st, id))
      && (forall c :: c != id ==> AuthorsOf(s.store, c) == AuthorsOf(st, c))
  {
    var s := UpdateBookSpec(st, id, data);
    var d := data.value;
    if d.authorIds.Present? {
      var found := Existing(st.authors, d.authorIds.value.value);
      assert AuthorsOf(s.store, id) == found by {
        forall a ensures a in AuthorsOf(s.store, id) <==> a in found {
          if a in found { assert Link(id, a) in s.store.links; }
          if a in AuthorsOf(s.store, id) {
            var l :| l in s.store.links && l.book == id && l.author == a;
            assert l !in WithoutBook(st.links, id);
          }
        }
      }
      forall c | c != id ensures AuthorsOf(s.store, c) == AuthorsOf(st, c) {
        forall a ensures a in AuthorsOf(s.store, c) <==> a in AuthorsOf(st, c) {
          if a in AuthorsOf(s.store, c) {
            var l :| l in s.store.links && l.book == c && l.author == a;
            assert l in st.links;
          }
          if a in AuthorsOf(st, c) {
            var l :| l in st.links && l.book == c && l.author == a;
            assert l in s.store.links;
          }
        }
      }
    }
  }

  /** The worked case of a partial update: a body holding only `year` changes only the year. */
  lemma UpdateOnlyYear(st: Store, id: int, year: Option<int>)
    requires Consistent(st) && id in st.books
    ensures var s := UpdateBookSpec(st, id, Some(BookData(Absent, Present(year), Absent, Absent, false)));
      && s.response.Ok?
      && s.store.books[id] == st.books[id].(year := year)
      && s.store.links == st.links
  {
    // the ISBN stays as it was, and the committed state holds it for this book alone
    var b := st.books[id];
    assert forall c :: c in st.books - {id} ==> st.books[c].isbn != b.isbn || b.isbn.None?;
  }

  /** A book update keeps the database consistent. */
  lemma UpdateBookPreservesConsistency(st: Store, id: int, data: Option<BookData>)
    requires Consistent(st)
    ensures Consistent(UpdateBookSpec(st, id, data).store)
  {
    var s := UpdateBookSpec(st, id, data);
    if s.response.Ok? {
      var nb := s.store.books[id];
      forall b, c | b in s.store.books && c in s.store.books && b != c && s.store.books[b].isbn.Some?
        ensures s.store.books[b].isbn != s.store.books[c].isbn
      {
        if b == id {
          assert c in st.books - {id};
        } else if c == id {
          assert b in st.books - {id};
        }
      }
    }
  }

  /** An author update changes that author's columns only, never the association table. */
  lemma UpdateAuthorEffect(st: Store, id: int, data: Option<AuthorData>)
    requires UpdateAuthorSpec(st, id, data).response.Ok?
    ensures var s := UpdateAuthorSpec(st, id, data);
      var d := data.value;
      var a := st.authors[id];
      && s.store.links == st.links && s.store.books == st.books
      && s.store.authors.Keys == st.authors.Keys
      && Some(s.store.authors[id].name) == Overwrite(d.name, Some(a.name))
      && s.store.authors[id].birthYear == Overwrite(d.birthYear, a.birthYear)
      && s.store.authors[id].country == Overwrite(d.country, a.country)
      && (forall c :: c in st.authors && c != id ==> s.store.authors[c] == st.authors[c])
  {
  }

  /** An author update succeeds exactly for a known id, a non-empty body and a name not set to null. */
  lemma UpdateAuthorOutcome(st: Store, id: int, data: Option<AuthorData>)
    ensures var s := UpdateAuthorSpec(st, id, data);
      && (s.response.Ok? <==> id in st.authors && data.Some? && !data.value.IsEmpty() && data.value.name != Present(None))
      && (!s.response.Ok? ==> s.store == st)
      && (id in st.authors && (data.None? || data.value.IsEmpty()) ==> s.response == BadRequest(NoDataProvided))
  {
  }

  lemma UpdateAuthorPreservesConsistency(st: Store, id: int, data: Option<AuthorData>)
    requires Consistent(st)
    ensures Consistent(UpdateAuthorSpec(st, id, data).store)
  {
  }

  /**
   * Deleting a book removes it and every association row that names it, and
   * nothing else; the database stays consistent, no author lists the book any
   * more, and a second delete of the same id is answered with not-found.
   */
  lemma DeleteBookEffect(st: Store, id: int)
    requires Consistent(st)
    ensures var s := DeleteBookSpec(st, id);
      && (s.response.Ok? <==> id in st.books)
      && (!s.response.Ok? ==> s.store == st && s.response == NotFound(BookNotFound))
      && (s.response.Ok? ==>
            && s.store.books == st.books - {id}
            && s.store.authors == st.authors
            && (forall l :: l in s.store.links <==> l in st.links && l.book != id)
            && Consistent(s.store)
            && (forall a :: a in s.store.authors ==> id !in BooksOf(s.store, a))
            && DeleteBookSpec(s.store, id) == Step(NotFound(BookNotFound), s.store))
  {
  }

  /**
   * Deleting an author removes it and every association row that names it,
   * but none of its books; a second delete is answered with not-found.
   */
  lemma DeleteAuthorEffect(st: Store, id: int)
    requires Consistent(st)
    ensures var s := DeleteAuthorSpec(st, id);
      && (s.response.Ok? <==> id in st.authors)
      && (!s.response.Ok? ==> s.store == st && s.response == NotFound(AuthorNotFound))
      && (s.response.Ok? ==>
            && s.store.authors == st.authors - {id}
            && s.store.books == st.books
            && (forall l :: l in s.store.links <==> l in st.links && l.author != id)
            && Consistent(s.store)
            && (forall b :: b in s.store.books ==> id !in AuthorsOf(s.store, b))
            && DeleteAuthorSpec(s.store, id) == Step(NotFound(AuthorNotFound), s.store))
  {
  }

  // ---------------------------------------------------------------------------
  // The database and the handlers that change it
  // ---------------------------------------------------------------------------

  /** The three tables, updated in place by the handlers. */
  class Library {
    var books: map<int, Book>
    var authors: map<int, Author>
    var links: set<Link>

    function State(): Store
      reads this
    {
      Store(books, authors, links)
    }

    ghost predicate Valid()
      reads this
    {
      Consistent(State())
    }

    /** `db.create_all()` on an empty database. */
    constructor ()
      ensures Valid()
      ensures State() == Store(map[], map[], {})
    {
      books, authors, links := map[], map[], {};
    }

    method CreateBook(data: Option<BookData>) returns (r: Response<BookDict>)
      requires Valid()
      requires NoRepeatedAuthor(authors, data)
      modifies this
      ensures Valid()
      ensures Step(r, State()) == CreateBookSpec(old(State()), data)
    {
      if data.None? || data.value.IsEmpty() {
        return BadRequest(NoDataProvided);
      }
      var d := data.value;
      if !TruthyString(d.title) {
        return BadRequest(TitleRequired);
      }
      if TruthyString(d.isbn) && IsbnInUse(books, d.isbn.value.value) {
        return BadRequest(IsbnExists);
      }
      var book := Book(d.title.value.value, Get(d.year), Get(d.isbn));
      var linked: set<int> := {};
      if TruthyList(d.authorIds) {
        var found, _ := ResolveAuthors(authors, d.authorIds.value.value);
        linked := found;
      }
      assert linked == Existing(authors, RequestedAuthors(d));
      // the commit, refused by the UNIQUE constraint on isbn
      if book.isbn.Some? && IsbnInUse(books, book.isbn.value) {
        return ServerError;
      }
      var id := NextRowId(books.Keys);
      books := books[id := book];
      links := links + LinksFor(id, linked);
      r := Ok(BookToDict(State(), id));
      CreateBookPreservesConsistency(old(State()), data);
    }

    method CreateAuthor(data: Option<AuthorData>) returns (r: Response<AuthorDict>)
      requires Valid()
      modifies this
      ensures Valid()
      ensures Step(r, State()) == CreateAuthorSpec(old(State()), data)
    {
      if data.None? || data.value.IsEmpty() {
        return BadRequest(NoDataProvided);
      }
      var d := data.value;
      if !TruthyString(d.name) {
        return BadRequest(NameRequired);
      }
      var id := NextRowId(authors.Keys);
      authors := authors[id := Author(d.name.value.value, Get(d.birthYear), Get(d.country))];
      r := Ok(AuthorToDict(State(), id));
    }

    method UpdateBook(id: int, data: Option<BookData>) returns (r: Response<BookDict>)
      requires Valid()
      requires NoRepeatedAuthor(authors, data)
      modifies this
      ensures Valid()
      ensures Step(r, State()) == UpdateBookSpec(old(State()), id, data)
    {
      if id !in books {
        return NotFound(BookNotFound);
      }
      if data.None? || data.value.IsEmpty() {
        return BadRequest(NoDataProvided);
      }
      var d := data.value;
      var book := books[id];
      // the session's pending changes
      var title := Some(book.title);
      var year := book.year;
      var isbn := book.isbn;
      if d.title.Present? {
        title := d.title.value;
      }
      if d.year.Present? {
        year := d.year.value;
      }
      if d.isbn.Present? {
        isbn := d.isbn.value;
      }
      var newLinks := links;
      if d.authorIds.Present? {
        if d.authorIds.value.None? {
          return ServerError;
        }
        var found, _ := ResolveAuthors(authors, d.authorIds.value.value);
        assert found == Existing(authors, d.authorIds.value.value);
        newLinks := WithoutBook(links, id) + LinksFor(id, found);
      }
      // the commit, refused by NOT NULL on title or UNIQUE on isbn
      if title.None? || (isbn.Some? && IsbnInUse(books - {id}, isbn.value)) {
        return ServerError;
      }
      books := books[id := Book(title.value, year, isbn)];
      links := newLinks;
      r := Ok(BookToDict(State(), id));
      UpdateBookPreservesConsistency(old(State()), id, data);
    }

    method UpdateAuthor(id: int, data: Option<AuthorData>) returns (r: Response<AuthorDict>)
      requires Valid()
      modifies this
      ensures Valid()
      ensures Step(r, State()) == UpdateAuthorSpec(old(State()), id, data)
    {
      if id !in authors {
        return NotFound(AuthorNotFound);
      }
      if data.None? || data.value.IsEmpty() {
        return BadRequest(NoDataProvided);
      }
      var d := data.value;
      var author := authors[id];
      var name := Some(author.name);
      var birthYear := author.birthYear;
      var country := author.country;
      if d.name.Present? {
        name := d.name.value;
      }
      if d.birthYear.Present? {
        birthYear := d.birthYear.value;
      }
      if d.country.Present? {
        country := d.country.value;
      }
      // the commit, refused by NOT NULL on name
      if name.None? {
        return ServerError;
      }
      authors := authors[id := Author(name.value, birthYear, country)];
      r := Ok(AuthorToDict(State(), id));
    }

    method DeleteBook(id: int) returns (r: Response<string>)
      requires Valid()
      modifies this
      ensures Valid()
      ensures Step(r, State()) == DeleteBookSpec(old(State()), id)
    {
      if id !in books {
        return NotFound(BookNotFound);
      }
      books := books - {id};
      links := WithoutBook(links, id);
      r := Ok(BookDeleted);
    }

    method DeleteAuthor(id: int) returns (r: Response<string>)
      requires Valid()
      modifies this
      ensures Valid()
      ensures Step(r, State()) == DeleteAuthorSpec(old(State()), id)
    {
      if id !in authors {
        return NotFound(AuthorNotFound);
      }
      authors := authors - {id};
      links := WithoutAuthor(links, id);
      r := Ok(AuthorDeleted);
    }
  }
}

=== FILE: requests.dfy ===
/**
 * The shapes a request handler sees and returns: optional values, the keys of
 * a JSON request body, and the outcome of a handler in place of the JSON
 * envelope and its HTTP status code.
 */
module Requests {

  datatype Option<T> = None | Some(value: T)

  /**
   * One key of a JSON request body: missing, or present with a value that
   * may be JSON null (`Present(None)`).
   */
  datatype Field<T> = Absent | Present(value: Option<T>)

  /** `data.get(key)`: the value, or None when the key is missing or null. */
  function Get<T>(f: Field<T>): Option<T>
  {
    if f.Present? then f.value else None
  }

  /** Python truthiness of `data.get(key)` for a string: present, not null, not "". */
  predicate TruthyString(f: Field<string>)
  {
    f.Present? && f.value.Some? && f.value.value != []
  }

  /** Python truthiness of `data.get(key)` for a list: present, not null, not []. */
  predicate TruthyList(f: Field<seq<int>>)
  {
    f.Present? && f.value.Some? && f.value.value != []
  }

  /** `if key in data: record.attr = data[key]`: a present key overwrites, null included. */
  function Overwrite<T>(f: Field<T>, current: Option<T>): Option<T>
  {
    if f.Present? then f.value else current
  }

  /** The body of a book create or update request. */
  datatype BookData = BookData(
    title: Field<string>,
    year: Field<int>,
    isbn: Field<string>,
    authorIds: Field<seq<int>>,
    otherKeys: bool)  // whether the body has keys the handlers do not read
  {
    /** Python's `not data` for a dictionary: it has no keys at all. */
    predicate IsEmpty()
    {
      title.Absent? && year.Absent? && isbn.Absent? && authorIds.Absent? && !otherKeys
    }
  }

  /** The body of an author create or update request. */
  datatype AuthorData = AuthorData(
    name: Field<string>,
    birthYear: Field<int>,
    country: Field<string>,
    otherKeys: bool)
  {
    predicate IsEmpty()
    {
      name.Absent? && birthYear.Absent? && country.Absent? && !otherKeys
    }
  }

  /**
   * What a handler answers: 200/201 with a payload, 404 and 400 with the
   * error text of the envelope, or 500 when the database refuses the commit
   * (the transaction is then rolled back).
   */
  datatype Response<T> = Ok(value: T) | NotFound(error: string) | BadRequest(error: string) | ServerError
}

=== FILE: search.dfy ===
/**
 * `GET /api/search?q=`: books whose title and authors whose name contain the
 * query (through `ilike`), each widened by one hop across the association
 * table, without duplicates.
 */
module Search {
  import opened Requests
  import opened Text
  import opened Catalogue

  const QueryRequired := "Search query is required"

  /** `request.args.get('q', '')`. */
  function RawQuery(q: Option<string>): string
  {
    if q.Some? then q.value else ""
  }

  /** `column.ilike(f'%{q}%')`: the query is pasted between two `%` wildcards. */
  predicate Matches(text: string, q: string)
  {
    Like(text, "%" + q + "%")
  }

  /** `books_by_title`. */
  function TitleHits(st: Store, q: string): set<int>
  {
    set b | b in st.books && Matches(st.books[b].title, q)
  }

  /** `authors_by_name`. */
  function NameHits(st: Store, q: string): set<int>
  {
    set a | a in st.authors && Matches(st.authors[a].name, q)
  }

  /** Every book linked to some author in `found`. */
  function BooksOfAny(st: Store, found: set<int>): set<int>
  {
    set l | l in st.links && l.author in found :: l.book
  }

  /** Every author linked to some book in `bs`. */
  function AuthorsOfAny(st: Store, bs: set<int>): set<int>
  {
    set l | l in st.links && l.book in bs :: l.author
  }

  /**
   * The books the search reports: those whose title matches, and those
   * credited to an author whose name matches.
   */
  function BookResults(st: Store, q: string): (r: set<int>)
    ensures forall b :: b in r <==>
      (b in st.books && Matches(st.books[b].title, q))
      || (exists a :: Link(b, a) in st.links && a in st.authors && Matches(st.authors[a].name, q))
  {
    var r := TitleHits(st, q) + BooksOfAny(st, NameHits(st, q));
    assert forall b, a :: Link(b, a) in st.links && a in NameHits(st, q) ==> b in BooksOfAny(st, NameHits(st, q)) by {
      forall b, a | Link(b, a) in st.links && a in NameHits(st, q) ensures b in BooksOfAny(st, NameHits(st, q)) {
        var l := Link(b, a);
        assert l in st.links && l.author in NameHits(st, q);
      }
    }
    r
  }

  /**
   * The authors the search reports: those whose name matches, and those
   * credited on a book whose title matches.
   */
  function AuthorResults(st: Store, q: string): (r: set<int>)
    ensures forall a :: a in r <==>
      (a in st.authors && Matches(st.authors[a].name, q))
      || (exists b :: Link(b, a) in st.links && b in st.books && Matches(st.books[b].title, q))
  {
    var r := NameHits(st, q) + AuthorsOfAny(st, TitleHits(st, q));
    assert forall b, a :: Link(b, a) in st.links && b in TitleHits(st, q) ==> a in AuthorsOfAny(st, TitleHits(st, q)) by {
      forall b, a | Link(b, a) in st.links && b in TitleHits(st, q) ensures a in AuthorsOfAny(st, TitleHits(st, q)) {
        var l := Link(b, a);
        assert l in st.links && l.book in TitleHits(st, q);
      }
    }
    r
  }

  /** In a consistent database, every reported id names a row that exists. */
  lemma ResultsExist(st: Store, q: string)
    requires Consistent(st)
    ensures BookResults(st, q) <= st.books.Keys
    ensures AuthorResults(st, q) <= st.authors.Keys
  {
  }

  /**
   * The expansion is complete: an author found by name brings every book
   * credited to them, a book found by title brings every author credited on it.
   */
  lemma ExpansionComplete(st: Store, q: string)
    ensures forall a :: a in NameHits(st, q) ==> BooksOf(st, a) <= BookResults(st, q)
    ensures forall b :: b in TitleHits(st, q) ==> AuthorsOf(st, b) <= AuthorResults(st, q)
  {
    forall a | a in NameHits(st, q) ensures BooksOf(st, a) <= BookResults(st, q) {
      forall b | b in BooksOf(st, a) ensures b in BookResults(st, q) {
        var l :| l in st.links && l.author == a && l.book == b;
        assert Link(b, a) == l;
      }
    }
    forall b | b in TitleHits(st, q) ensures AuthorsOf(st, b) <= AuthorResults(st, q) {
      forall a | a in AuthorsOf(st, b) ensures a in AuthorResults(st, q) {
        var l :| l in st.links && l.book == b && l.author == a;
        assert Link(b, a) == l;
      }
    }
  }

  /** For a query without `%` or `_`, matching is case-insensitive (ASCII) substring search. */
  lemma PlainQueryIsSubstring(st: Store, q: string)
    requires NoWildcards(q)
    ensures forall b :: b in TitleHits(st, q) <==> b in st.books && ContainsFold(st.books[b].title, q)
    ensures forall a :: a in NameHits(st, q) <==> a in st.authors && ContainsFold(st.authors[a].name, q)
  {
    forall b | b in st.books ensures Matches(st.books[b].title, q) <==> ContainsFold(st.books[b].title, q) {
      LikeIsContainsFold(st.books[b].title, q);
    }
    forall a | a in st.authors ensures Matches(st.authors[a].name, q) <==> ContainsFold(st.authors[a].name, q) {
      LikeIsContainsFold(st.authors[a].name, q);
    }
  }

  lemma EveryTextMatchesPercent()
    ensures forall s :: Matches(s, "%")
  {
    assert "%" + "%" + "%" == "%%%" && "%%%"[1..] == "%%" && "%%"[1..] == "%";
    forall s: string ensures Matches(s, "%") {
      LikePercentOnly(s);
      assert Like(s, "%%");
    }
  }

  /**
   * The query is not escaped: `%` finds every book and every author, and `_`
   * every book whose title is not empty.
   */
  lemma WildcardQueries(st: Store)
    ensures TitleHits(st, "%") == st.books.Keys && NameHits(st, "%") == st.authors.Keys
    ensures forall b :: b in TitleHits(st, "_") <==> b in st.books && st.books[b].title != []
  {
    EveryTextMatchesPercent();
    assert TitleHits(st, "%") == st.books.Keys by {
      forall b | b in st.books ensures b in TitleHits(st, "%") {
        assert Matches(st.books[b].title, "%");
      }
    }
    assert NameHits(st, "%") == st.authors.Keys by {
      forall a | a in st.authors ensures a in NameHits(st, "%") {
        assert Matches(st.authors[a].name, "%");
      }
    }
    assert "%" + "_" + "%" == "%_%";
    forall b | b in st.books ensures Matches(st.books[b].title, "_") <==> st.books[b].title != [] {
      UnderscoreMatchesAnyNonEmpty(st.books[b].title);
    }
  }

  /** `set(books_by_title + books_by_author_name)` after one more author's books are added. */
  lemma BooksOfAnyStep(st: Store, done: set<int>, a: int)
    ensures BooksOfAny(st, done + {a}) == BooksOfAny(st, done) + BooksOf(st, a)
  {
    forall b ensures b in BooksOfAny(st, done + {a}) <==> b in BooksOfAny(st, done) + BooksOf(st, a) {
      if b in BooksOfAny(st, done + {a}) {
        var l :| l in st.links && l.author in done + {a} && l.book == b;
        if l.author == a { assert b in BooksOf(st, a); } else { assert b in BooksOfAny(st, done); }
      }
      if b in BooksOf(st, a) {
        var l :| l in st.links && l.author == a && l.book == b;
        assert l.author in done + {a};
      }
      if b in BooksOfAny(st, done) {
        var l :| l in st.links && l.author in done && l.book == b;
        assert l.author in done + {a};
      }
    }
  }

  lemma AuthorsOfAnyStep(st: Store, done: set<int>, b: int)
    ensures AuthorsOfAny(st, done + {b}) == AuthorsOfAny(st, done) + AuthorsOf(st, b)
  {
    forall a ensures a in AuthorsOfAny(st, done + {b}) <==> a in AuthorsOfAny(st, done) + AuthorsOf(st, b) {
      if a in AuthorsOfAny(st, done + {b}) {
        var l :| l in st.links && l.book in done + {b} && l.author == a;
        if l.book == b { assert a in AuthorsOf(st, b); } else { assert a in AuthorsOfAny(st, done); }
      }
      if a in AuthorsOf(st, b) {
        var l :| l in st.links && l.book == b && l.author == a;
        assert l.book in done + {b};
      }
      if a in AuthorsOfAny(st, done) {
        var l :| l in st.links && l.book in done && l.author == a;
        assert l.book in done + {b};
      }
    }
  }

  /** The loop that extends `books_by_author_name` with `author.books` for each author found by name. */
  method CollectBooks(st: Store, authorsByName: set<int>) returns (booksByAuthorName: set<int>)
    ensures booksByAuthorName == BooksOfAny(st, authorsByName)
  {
    booksByAuthorName := {};
    var pending := authorsByName;
    while pending != {}
      invariant pending <= authorsByName
      invariant booksByAuthorName == BooksOfAny(st, authorsByName - pending)
      decreases pending
    {
      Inhabited(pending);
      var a :| a in pending;
      BooksOfAnyStep(st, authorsByName - pending, a);
      assert authorsByName - (pending - {a}) == (authorsByName - pending) + {a};
      booksByAuthorName := booksByAuthorName + BooksOf(st, a);
      pending := pending - {a};
    }
    assert authorsByName - pending == authorsByName;
  }

  /** The loop that extends `authors_by_book_title` with `book.authors` for each book found by title. */
  method CollectAuthors(st: Store, booksByTitle: set<int>) returns (authorsByBookTitle: set<int>)
    ensures authorsByBookTitle == AuthorsOfAny(st, booksByTitle)
  {
    authorsByBookTitle := {};
    var pending := booksByTitle;
    while pending != {}
      invariant pending <= booksByTitle
      invariant authorsByBookTitle == AuthorsOfAny(st, booksByTitle - pending)
      decreases pending
    {
      Inhabited(pending);
      var b :| b in pending;
      AuthorsOfAnyStep(st, booksByTitle - pending, b);
      assert booksByTitle - (pending - {b}) == (booksByTitle - pending) + {b};
      authorsByBookTitle := authorsByBookTitle + AuthorsOf(st, b);
      pending := pending - {b};
    }
    assert booksByTitle - pending == booksByTitle;
  }

  /** `list(set(...))`: the elements of a set, each once, in no particular order. */
  method Enumerate(s: set<int>) returns (xs: seq<int>)
    ensures forall x :: x in xs <==> x in s
    ensures forall i, j :: 0 <= i < j < |xs| ==> xs[i] != xs[j]
    ensures |xs| == |s|
  {
    xs := [];
    var rest := s;
    while rest != {}
      invariant rest <= s
      invariant forall x :: x in xs <==> x in s && x !in rest
      invariant forall i, j :: 0 <= i < j < |xs| ==> xs[i] != xs[j]
      invariant |xs| + |rest| == |s|
      decreases rest
    {
      Inhabited(rest);
      var x :| x in rest;
      xs := xs + [x];
      rest := rest - {x};
    }
  }

  /** `[book.to_dict() for book in all_books]`. */
  function BookDicts(st: Store, ids: seq<int>): (ds: seq<BookDict>)
    requires forall x :: x in ids ==> x in st.books
    ensures |ds| == |ids|
  {
    seq(|ids|, i requires 0 <= i < |ids| => BookToDict(st, ids[i]))
  }

  /** `[author.to_dict() for author in all_authors]`. */
  function AuthorDicts(st: Store, ids: seq<int>): (ds: seq<AuthorDict>)
    requires forall x :: x in ids ==> x in st.authors
    ensures |ds| == |ids|
  {
    seq(|ids|, i requires 0 <= i < |ids| => AuthorToDict(st, ids[i]))
  }

  /** Serializing a duplicate-free enumeration of `s` lists each row of `s` once. */
  lemma BookDictsSpec(st: Store, ids: seq<int>, s: set<int>)
    requires forall x :: x in ids <==> x in s
    requires s <= st.books.Keys
    requires forall i, j :: 0 <= i < j < |ids| ==> ids[i] != ids[j]
    ensures forall d :: d in BookDicts(st, ids) <==> d.id in s && d == BookToDict(st, d.id)
    ensures forall i, j :: 0 <= i < j < |ids| ==> BookDicts(st, ids)[i].id != BookDicts(st, ids)[j].id
  {
    var ds := BookDicts(st, ids);
    forall d ensures d in ds <==> d.id in s && d == BookToDict(st, d.id) {
      if d.id in s && d == BookToDict(st, d.id) {
        var i :| 0 <= i < |ids| && ids[i] == d.id;
        assert ds[i] == d;
      }
    }
  }

  lemma AuthorDictsSpec(st: Store, ids: seq<int>, s: set<int>)
    requires forall x :: x in ids <==> x in s
    requires s <= st.authors.Keys
    requires forall i, j :: 0 <= i < j < |ids| ==> ids[i] != ids[j]
    ensures forall d :: d in AuthorDicts(st, ids) <==> d.id in s && d == AuthorToDict(st, d.id)
    ensures forall i, j :: 0 <= i < j < |ids| ==> AuthorDicts(st, ids)[i].id != AuthorDicts(st, ids)[j].id
  {
    var ds := AuthorDicts(st, ids);
    forall d ensures d in ds <==> d.id in s && d == AuthorToDict(st, d.id) {
      if d.id in s && d == AuthorToDict(st, d.id) {
        var i :| 0 <= i < |ids| && ids[i] == d.id;
        assert ds[i] == d;
      }
    }
  }

  /** The search response: the stripped query, both lists and their lengths. */
  datatype SearchResult = SearchResult(query: string, books: seq<BookDict>, authors: seq<AuthorDict>,
                                       bookCount: nat, authorCount: nat)

  /**
   * `GET /api/search?q=`: a query that is empty once stripped of whitespace
   * is refused; otherwise each list holds exactly the specified results, each
   * once, serialized with `to_dict`, and each count is its list's length.
   */
  method SearchAll(st: Store, q: Option<string>) returns (r: Response<SearchResult>)
    requires Consistent(st)
    ensures !r.Ok? <==> AllSpace(RawQuery(q))
    ensures !r.Ok? ==> r == BadRequest(QueryRequired)
    ensures r.Ok? ==>
      var query := Strip(RawQuery(q));
      var res := r.value;
      && res.query == query
      && (forall d :: d in res.books <==> d.id in BookResults(st, query) && d == BookToDict(st, d.id))
      && (forall i, j :: 0 <= i < j < |res.books| ==> res.books[i].id != res.books[j].id)
      && res.bookCount == |res.books| == |BookResults(st, query)|
      && (forall d :: d in res.authors <==> d.id in AuthorResults(st, query) && d == AuthorToDict(st, d.id))
      && (forall i, j :: 0 <= i < j < |res.authors| ==> res.authors[i].id != res.authors[j].id)
      && res.authorCount == |res.authors| == |AuthorResults(st, query)|
  {
    var query := Strip(RawQuery(q));
    StripEmptyIff(RawQuery(q));
    if query == [] {
      return BadRequest(QueryRequired);
    }
    var booksByTitle := TitleHits(st, query);
    var authorsByName := NameHits(st, query);

    var booksByAuthorName := CollectBooks(st, authorsByName);
    var allBooks := Enumerate(booksByTitle + booksByAuthorName);
    var authorsByBookTitle := CollectAuthors(st, booksByTitle);
    var allAuthors := Enumerate(authorsByName + authorsByBookTitle);

    ResultsExist(st, query);
    var books := BookDicts(st, allBooks);
    BookDictsSpec(st, allBooks, BookResults(st, query));
    var authors := AuthorDicts(st, allAuthors);
    AuthorDictsSpec(st, allAuthors, AuthorResults(st, query));
    r := Ok(SearchResult(query, books, authors, |books|, |authors|));
  }
}

=== FILE: seed.dfy ===
/**
 * The sample catalogue the application writes into an empty database, and
 * the search the sample data is meant to demonstrate.
 */
module Seed {
  import opened Requests
  import opened Text
  import opened Catalogue
  import opened Search

  const HarryPotter := "Harry Potter and the Philosopher's Stone"
  const NineteenEightyFour := "1984"
  const AnimalFarm := "Animal Farm"
  const OldManAndTheSea := "The Old Man and the Sea"
  const OrientExpress := "Murder on the Orient Express"
  const TheShining := "The Shining"
  const GoodOmens := "Good Omens"

  const Rowling := "J.K. Rowling"
  const Orwell := "George Orwell"
  const Hemingway := "Ernest Hemingway"
  const Christie := "Agatha Christie"
  const King := "Stephen King"

  /**
   * The five authors (ids 1-5, in insertion order), the six books inserted
   * next (ids 1-6), Good Omens (id 7) and the association rows.
   */
  const Sample: Store := Store(
    map[
      1 := Book(HarryPotter, Some(1997), Some("978-0747532743")),
      2 := Book(NineteenEightyFour, Some(1949), Some("978-0451524935")),
      3 := Book(AnimalFarm, Some(1945), Some("978-0451526342")),
      4 := Book(OldManAndTheSea, Some(1952), Some("978-0684801223")),
      5 := Book(OrientExpress, Some(1934), Some("978-0062693662")),
      6 := Book(TheShining, Some(1977), Some("978-0307743657")),
      7 := Book(GoodOmens, Some(1990), Some("978-0060853983"))],
    map[
      1 := Author(Rowling, Some(1965), Some("United Kingdom")),
      2 := Author(Orwell, Some(1903), Some("United Kingdom")),
      3 := Author(Hemingway, Some(1899), Some("United States")),
      4 := Author(Christie, Some(1890), Some("United Kingdom")),
      5 := Author(King, Some(1947), Some("United States"))],
    {Link(1, 1), Link(2, 2), Link(3, 2), Link(4, 3), Link(5, 4), Link(6, 5), Link(7, 4), Link(7, 5)})

  /** The sample data satisfies the database's constraints. */
  lemma SampleConsistent()
    ensures Consistent(Sample)
  {
  }

  /** Some two adjacent characters of `s` fold to `a` and `b`. */
  predicate HasFoldPair(s: string, a: char, b: char)
  {
    |s| >= 2 && ((LowerChar(s[0]) == a && LowerChar(s[1]) == b) || HasFoldPair(s[1..], a, b))
  }

  /** A text in which the first two letters of `q` never stand side by side does not contain `q`. */
  lemma {:induction false} NoFoldPairNoMatch(s: string, q: string)
    requires |q| >= 2 && !HasFoldPair(s, LowerChar(q[0]), LowerChar(q[1]))
    ensures !ContainsFold(s, q)
  {
    if k :| MatchesAt(s, q, k) {
      PairAt(s, q, k);
    }
  }

  lemma {:induction false} PairAt(s: string, q: string, k: int)
    requires |q| >= 2 && MatchesAt(s, q, k)
    ensures HasFoldPair(s, LowerChar(q[0]), LowerChar(q[1]))
    decreases k
  {
    assert s[k..k + |q|][0] == s[k] && s[k..k + |q|][1] == s[k + 1];
    if k > 0 {
      assert s[1..][k - 1..k - 1 + |q|] == s[k..k + |q|];
      PairAt(s[1..], q, k - 1);
    }
  }

  /** A text with no character folding to the first letter of `q` does not contain `q`. */
  lemma FirstLetterAbsent(s: string, q: string)
    requires q != [] && forall i :: 0 <= i < |s| ==> LowerChar(s[i]) != LowerChar(q[0])
    ensures !ContainsFold(s, q)
  {
    forall k | 0 <= k <= |s| - |q| ensures !MatchesAt(s, q, k) {
      assert s[k..k + |q|][0] == s[k];
    }
  }

  /** A text holds no letter k, in either case. */
  predicate LacksK(t: string)
  {
    'k' !in t && 'K' !in t
  }

  /** Only `k` and `K` fold to `k`. */
  lemma NoK(s: string)
    requires LacksK(s)
    ensures forall i :: 0 <= i < |s| ==> LowerChar(s[i]) != 'k'
  {
    forall i | 0 <= i < |s| ensures LowerChar(s[i]) != 'k' {
      assert s[i] in s;
    }
  }

  /** The sample titles, and the sample names other than Rowling's and King's. */
  const Titles := {HarryPotter, NineteenEightyFour, AnimalFarm, OldManAndTheSea, OrientExpress, TheShining, GoodOmens}
  const OtherNames := {Orwell, Hemingway, Christie}

  lemma SampleTitles()
    ensures forall b :: b in Sample.books ==> Sample.books[b].title in Titles
  {
  }

  lemma SampleNames()
    ensures Sample.authors.Keys == {1, 2, 3, 4, 5}
    ensures Sample.authors[1].name == Rowling && Sample.authors[5].name == King
    ensures forall a :: a in Sample.authors && a != 1 && a != 5 ==> Sample.authors[a].name in OtherNames
  {
  }

  /** No sample title holds a k. */
  lemma TitlesLackK()
    ensures LacksK(HarryPotter)
    ensures LacksK(NineteenEightyFour)
    ensures LacksK(AnimalFarm)
    ensures LacksK(OldManAndTheSea)
    ensures LacksK(OrientExpress)
    ensures LacksK(TheShining)
    ensures LacksK(GoodOmens)
  {
    HarryPotterLacksK();
    OrientExpressLacksK();
    assert LacksK(NineteenEightyFour);
    assert LacksK(AnimalFarm);
    assert LacksK(OldManAndTheSea);
    assert LacksK(TheShining);
    assert LacksK(GoodOmens);
  }

  lemma HarryPotterLacksK()
    ensures LacksK(HarryPotter)
  {
    assert 'k' !in HarryPotter;
    assert 'K' !in HarryPotter;
  }

  lemma OrientExpressLacksK()
    ensures LacksK(OrientExpress)
  {
    assert 'k' !in OrientExpress;
    assert 'K' !in OrientExpress;
  }

  /** Orwell's, Hemingway's and Christie's names hold no k. */
  lemma OtherNamesLackK()
    ensures LacksK(Orwell) && LacksK(Hemingway) && LacksK(Christie)
  {
    assert LacksK(Orwell);
    assert LacksK(Hemingway);
    assert LacksK(Christie);
  }

  /** A text without the letter k does not match "king". */
  lemma NoKing(s: string)
    requires LacksK(s)
    ensures !Matches(s, "king")
  {
    NoK(s);
    FirstLetterAbsent(s, "king");
    LikeIsContainsFold(s, "king");
  }

  /** With the sample titles, no title contains "king". */
  lemma NoTitleHasKing(st: Store)
    requires forall b :: b in st.books ==> st.books[b].title in Titles
    ensures TitleHits(st, "king") == {}
  {
    TitlesLackK();
    forall b | b in st.books ensures !Matches(st.books[b].title, "king") {
      NoKing(st.books[b].title);
    }
  }

  /** With the sample names, only Stephen King's contains "king"; J.K. Rowling's has a K, but no "ki". */
  lemma OnlyKingHasKing(st: Store)
    requires st.authors.Keys == {1, 2, 3, 4, 5}
    requires st.authors[1].name == Rowling && st.authors[5].name == King
    requires forall a :: a in st.authors && a != 1 && a != 5 ==> st.authors[a].name in OtherNames
    ensures NameHits(st, "king") == {5}
  {
    OtherNamesLackK();
    forall a | a in st.authors && a != 1 && a != 5 ensures !Matches(st.authors[a].name, "king") {
      NoKing(st.authors[a].name);
    }
    RowlingIsNoKing();
    KingIsKing();
  }

  /** "J.K. Rowling" holds a K, but no "ki": it does not match "king". */
  lemma RowlingIsNoKing()
    ensures !Matches(Rowling, "king")
  {
    assert !HasFoldPair(Rowling, 'k', 'i');
    NoFoldPairNoMatch(Rowling, "king");
    LikeIsContainsFold(Rowling, "king");
  }

  lemma KingIsKing()
    ensures Matches(King, "king")
  {
    assert MatchesAt(King, "king", 8);
    LikeIsContainsFold(King, "king");
  }

  /** Stephen King is credited on The Shining and Good Omens. */
  lemma KingsBooks()
    ensures BooksOfAny(Sample, {5}) == {6, 7}
  {
    assert Link(6, 5) in Sample.links && Link(7, 5) in Sample.links;
  }

  /**
   * Searching the sample data for "king" finds Stephen King by name, then his
   * two books; no title contains "king", so the search stops there: Agatha
   * Christie, his co-author on Good Omens, is not reported.
   */
  lemma KingSearch()
    ensures BookResults(Sample, "king") == {6, 7}
    ensures AuthorResults(Sample, "king") == {5}
  {
    SampleTitles();
    SampleNames();
    NoTitleHasKing(Sample);
    OnlyKingHasKing(Sample);
    KingsBooks();
    assert AuthorsOfAny(Sample, {}) == {};
  }
}

=== FILE: text.dfy ===
/**
 * The two pieces of string semantics the search endpoint relies on: Python's
 * `str.strip()` with no argument, and SQLite's `LIKE` operator as used by
 * `ilike` (no ESCAPE clause, case folding for ASCII letters only).
 */
module Text {

  /** Python's `str.isspace()` for one character: the characters `strip()` removes. */
  predicate IsSpace(c: char)
  {
    || c == ' '
    || ('\t' <= c <= '\r')                 // tab, line feed, vertical tab, form feed, carriage return
    || ('\U{1C}' <= c <= '\U{1F}')         // file, group, record and unit separators
    || c == '\U{85}' || c == '\U{A0}' || c == '\U{1680}'
    || ('\U{2000}' <= c <= '\U{200A}')
    || c == '\U{2028}' || c == '\U{2029}' || c == '\U{202F}' || c == '\U{205F}' || c == '\U{3000}'
  }

  predicate AllSpace(s: string)
  {
    forall i :: 0 <= i < |s| ==> IsSpace(s[i])
  }

  function TrimLeft(s: string): string
  {
    if s != [] && IsSpace(s[0]) then TrimLeft(s[1..]) else s
  }

  function TrimRight(s: string): string
  {
    if s != [] && IsSpace(s[|s| - 1]) then TrimRight(s[..|s| - 1]) else s
  }

  /** `s.strip()`. */
  function Strip(s: string): string
  {
    TrimRight(TrimLeft(s))
  }

  /** TrimLeft drops exactly the leading run of whitespace. */
  lemma {:induction false} TrimLeftSpec(s: string)
    ensures exists i :: 0 <= i <= |s| && TrimLeft(s) == s[i..] && AllSpace(s[..i])
    ensures TrimLeft(s) != [] ==> !IsSpace(TrimLeft(s)[0])
  {
    if s != [] && IsSpace(s[0]) {
      TrimLeftSpec(s[1..]);
      var i :| 0 <= i <= |s[1..]| && TrimLeft(s[1..]) == s[1..][i..] && AllSpace(s[1..][..i]);
      assert TrimLeft(s) == s[i + 1..];
      var head := s[..i + 1];
      assert AllSpace(head) by {
        forall k | 0 <= k < |head| ensures IsSpace(head[k]) {
          if k > 0 { assert head[k] == s[1..][..i][k - 1]; }
        }
      }
    } else {
      assert TrimLeft(s) == s[0..];
    }
  }

  /** TrimRight drops exactly the trailing run of whitespace. */
  lemma {:induction false} TrimRightSpec(s: string)
    ensures exists j :: 0 <= j <= |s| && TrimRight(s) == s[..j] && AllSpace(s[j..])
    ensures TrimRight(s) != [] ==> !IsSpace(TrimRight(s)[|TrimRight(s)| - 1])
  {
    if s != [] && IsSpace(s[|s| - 1]) {
      var t := s[..|s| - 1];
      TrimRightSpec(t);
      var j :| 0 <= j <= |t| && TrimRight(t) == t[..j] && AllSpace(t[j..]);
      assert TrimRight(s) == s[..j];
      assert AllSpace(s[j..]) by {
        forall k | 0 <= k < |s| - j ensures IsSpace(s[j..][k]) {
          if k < |t| - j { assert s[j..][k] == t[j..][k]; }
        }
      }
    } else {
      assert TrimRight(s) == s[..|s|];
    }
  }

  /**
   * `s.strip()` is the slice of `s` between its leading and its trailing
   * whitespace: it neither starts nor ends with whitespace, and all it removed
   * was whitespace.
   */
  lemma StripSpec(s: string)
    ensures exists i, j :: 0 <= i <= j <= |s| && Strip(s) == s[i..j] && AllSpace(s[..i]) && AllSpace(s[j..])
    ensures Strip(s) != [] ==> !IsSpace(Strip(s)[0]) && !IsSpace(Strip(s)[|Strip(s)| - 1])
  {
    TrimLeftSpec(s);
    var i :| 0 <= i <= |s| && TrimLeft(s) == s[i..] && AllSpace(s[..i]);
    var j := StripRight(s, i);
    assert 0 <= i <= i + j <= |s| && Strip(s) == s[i..i + j] && AllSpace(s[..i]) && AllSpace(s[i + j..]);
  }

  /** The right trim of the suffix `s[i..]` left by the left trim. */
  lemma StripRight(s: string, i: nat) returns (j: nat)
    requires i <= |s| && TrimLeft(s) == s[i..]
    requires TrimLeft(s) != [] ==> !IsSpace(TrimLeft(s)[0])
    ensures i + j <= |s| && Strip(s) == s[i..i + j] && AllSpace(s[i + j..])
    ensures Strip(s) != [] ==> !IsSpace(Strip(s)[0]) && !IsSpace(Strip(s)[|Strip(s)| - 1])
  {
    var t := s[i..];
    TrimRightSpec(t);
    j :| 0 <= j <= |t| && TrimRight(t) == t[..j] && AllSpace(t[j..]);
    assert t[..j] == s[i..i + j];
    assert t[j..] == s[i + j..];
    if t[..j] != [] {
      assert t[..j][0] == t[0];
    }
  }

  /** A string strips to "" exactly when it is whitespace only. */
  lemma StripEmptyIff(s: string)
    ensures Strip(s) == [] <==> AllSpace(s)
  {
    StripSpec(s);
    var i, j :| 0 <= i <= j <= |s| && Strip(s) == s[i..j] && AllSpace(s[..i]) && AllSpace(s[j..]);
    if Strip(s) == [] {
      assert i == j;
      forall k | 0 <= k < |s| ensures IsSpace(s[k]) {
        if k < i { assert s[k] == s[..i][k]; } else { assert s[k] == s[j..][k - j]; }
      }
    } else {
      assert Strip(s)[0] == s[i];
      assert !IsSpace(s[i]);
    }
  }

  /** Stripping twice removes nothing more. */
  lemma StripIdempotent(s: string)
    ensures Strip(Strip(s)) == Strip(s)
  {
    StripSpec(s);
    var t := Strip(s);
    if t != [] {
      assert TrimLeft(t) == t;
      assert TrimRight(t) == t;
    }
  }

  /** SQLite's `lower()` and LIKE's case folding: ASCII letters only. */
  function LowerChar(c: char): char
  {
    if 'A' <= c <= 'Z' then (c as int + 32) as char else c
  }

  /**
   * `s LIKE p` in SQLite with no ESCAPE clause: `%` matches any run of
   * characters, `_` exactly one character, every other character itself up
   * to ASCII case.
   */
  predicate Like(s: string, p: string)
    decreases |s| + |p|
  {
    if p == [] then s == []
    else if p[0] == '%' then Like(s, p[1..]) || (s != [] && Like(s[1..], p))
    else s != [] && (p[0] == '_' || LowerChar(s[0]) == LowerChar(p[0])) && Like(s[1..], p[1..])
  }

  predicate NoWildcards(q: string)
  {
    forall i :: 0 <= i < |q| ==> q[i] != '%' && q[i] != '_'
  }

  /** Two strings of the same length that agree up to ASCII case. */
  predicate EqualFold(a: string, b: string)
  {
    |a| == |b| && forall i :: 0 <= i < |a| ==> LowerChar(a[i]) == LowerChar(b[i])
  }

  /** `q` occurs in `s` at position `k`, ignoring ASCII case. */
  predicate MatchesAt(s: string, q: string, k: int)
  {
    0 <= k <= |s| - |q| && EqualFold(s[k..k + |q|], q)
  }

  /** `q` occurs in `s` at some position, ignoring ASCII case. */
  ghost predicate ContainsFold(s: string, q: string)
  {
    exists k :: MatchesAt(s, q, k)
  }

  /** A lone `%` matches every string. */
  lemma {:induction false} LikePercentOnly(s: string)
    ensures Like(s, "%")
  {
    if s != [] {
      LikePercentOnly(s[1..]);
    }
  }

  /** A leading `%` lets the rest of the pattern match any suffix. */
  lemma {:induction false} LikeLeadingPercent(s: string, p: string)
    ensures Like(s, ['%'] + p) <==> exists k :: 0 <= k <= |s| && Like(s[k..], p)
  {
    var pp := ['%'] + p;
    assert pp[0] == '%' && pp[1..] == p;
    assert Like(s, pp) <==> Like(s, p) || (s != [] && Like(s[1..], pp));
    if s == [] {
      if Like(s, p) { assert s[0..] == s; }
    } else {
      LikeLeadingPercent(s[1..], p);
      if Like(s, p) {
        assert s[0..] == s;
      }
      if Like(s[1..], pp) {
        var k :| 0 <= k <= |s[1..]| && Like(s[1..][k..], p);
        assert s[k + 1..] == s[1..][k..];
        assert 0 <= k + 1 <= |s| && Like(s[k + 1..], p);
      }
      if k :| 0 <= k <= |s| && Like(s[k..], p) {
        if k == 0 {
          assert s[0..] == s;
          assert Like(s, ['%'] + p);
        } else {
          assert s[1..][k - 1..] == s[k..];
          assert Like(s[1..], ['%'] + p);
          assert Like(s, ['%'] + p);
        }
      }
    }
  }

  /** A wildcard-free `q` followed by `%` matches exactly the strings that start with `q`, up to case. */
  lemma {:induction false} LikeLiteralPrefix(s: string, q: string)
    requires NoWildcards(q)
    ensures Like(s, q + "%") <==> |q| <= |s| && EqualFold(s[..|q|], q)
  {
    if q == [] {
      assert q + "%" == "%";
      LikePercentOnly(s);
    } else {
      assert (q + "%")[1..] == q[1..] + "%";
      assert q[0] != '%' && q[0] != '_';
      if s != [] {
        LikeLiteralPrefix(s[1..], q[1..]);
        if |q| <= |s| && EqualFold(s[..|q|], q) {
          assert LowerChar(s[0]) == LowerChar(q[0]) by { assert s[..|q|][0] == s[0]; }
          assert EqualFold(s[1..][..|q| - 1], q[1..]) by {
            forall i | 0 <= i < |q| - 1
              ensures LowerChar(s[1..][..|q| - 1][i]) == LowerChar(q[1..][i])
            {
              assert s[1..][..|q| - 1][i] == s[..|q|][i + 1];
            }
          }
        }
        if Like(s, q + "%") {
          assert EqualFold(s[..|q|], q) by {
            forall i | 0 <= i < |q| ensures LowerChar(s[..|q|][i]) == LowerChar(q[i]) {
              if i > 0 { assert s[..|q|][i] == s[1..][..|q| - 1][i - 1]; }
            }
          }
        }
      }
    }
  }

  /**
   * `s LIKE '%q%'` with a wildcard-free `q` is case-insensitive (ASCII)
   * substring search.
   */
  lemma LikeIsContainsFold(s: string, q: string)
    requires NoWildcards(q)
    ensures Like(s, "%" + q + "%") <==> ContainsFold(s, q)
  {
    assert "%" + q + "%" == ['%'] + (q + "%");
    LikeLeadingPercent(s, q + "%");
    if Like(s, "%" + q + "%") {
      var k :| 0 <= k <= |s| && Like(s[k..], q + "%");
      LikeLiteralPrefix(s[k..], q);
      assert s[k..][..|q|] == s[k..k + |q|];
      assert MatchesAt(s, q, k);
    }
    if ContainsFold(s, q) {
      var k :| MatchesAt(s, q, k);
      LikeLiteralPrefix(s[k..], q);
      assert s[k..][..|q|] == s[k..k + |q|];
    }
  }

  /** A `_` in the query matches any one character: `%_%` matches every non-empty string. */
  lemma UnderscoreMatchesAnyNonEmpty(s: string)
    ensures Like(s, "%_%") <==> s != []
  {
    assert "%_%" == ['%'] + "_%";
    LikeLeadingPercent(s, "_%");
    if s != [] {
      assert "_%"[1..] == "%";
      LikePercentOnly(s[1..]);
      assert s[0..] == s;
    }
  }
}
